=== FILE: README.md ===
# IncludeOS virtual file system tree, in Dafny

A model of the in-memory VFS of `api/fs/vfs.hpp`. The model covers:

- the tree of `VFS_entry` nodes;
- the path walk that finds or creates nodes;
- mounting of borrowed objects on leaves, and checked typed retrieval;
- the `VFS` registry with its disk map and dirent cache;
- the asynchronous mount of a disk-local path.

Every node is an immutable `Tree.Entry` value. A node has a name, a description, an optional borrowed object (`Objects.Obj`), the object's type tag and const flag, and its owned children as a sequence. Positions in a tree are index paths (`seq<nat>`). `Tree.NamesPath(t, a, p)` says that address `a` is reached from `t` by first-match name lookups along the tokens of `p`, which is how `get_child` resolves a name.

The registry's function-local statics are gathered into one state value, `Registry.Vfs`:

- `mutable_root` becomes the root;
- `disk_map` becomes a map from device name to disk handle;
- `dirent_map` becomes a map from (disk, remote path) to dirent.

Each state-changing operation returns the next state together with its outcome, a `Result` (`Registry.Step`). Lookups such as `Get` and `Stat` return only a `Result`, and `InsertDisk` returns the next state with the registered handle. A C++ exception becomes an `Err` value:

| exception | `Err` value |
|---|---|
| `Err_not_leaf` | `NotLeaf` |
| `Err_bad_cast` | `BadCast` |
| `Err_not_found` | `NotFound` |
| `Err_mountpoint_invalid` | `MountpointInvalid` |
| `Disk::Err_not_mounted` | `NotMounted` |

`typeid(T)` becomes a `TypeTag`:

- `NullTag` is the type of a directory node;
- `DirentTag` is `Dirent`;
- `DiskPtrTag` is `Disk_ptr`;
- `Tag(n)` is any other type.

`typeid` ignores const, so the const flag is kept separately. `invalid_dirent()` is the `InvalidDirent` value.

The asynchronous `insert_dirent` and `mount(local, disk, remote, ...)` are each split into a synchronous request and a completion. The completion is the stat callback, and the file system's outcome (an error, or a dirent) is an input to it. Several completions for one key can then be composed in any order (`Dirents.CompleteAll`).

The two asynchronous mounts of the same (disk, remote) pair behave as the code is written. The first mount's callback receives the dirent it just cached. The second `emplace` finds the key taken, so its callback receives `invalid_dirent()`, which is then mounted at the second local path. The two local paths therefore do not share a resolved dirent. `Dirents.SecondRemoteMountGetsPlaceholder` states this behaviour.

## Model

| member | source | states |
|---|---|---|
| Tree.TypedObj | api/fs/vfs.hpp:128-143 | Typed retrieval fails NotLeaf exactly when the node holds no object. It fails BadCast exactly when the type differs, or when a const object is asked for as mutable. Otherwise it returns the held object, and a const request for a mutable object succeeds. |
| Tree.GetChild | api/fs/vfs.hpp:260-264 | The index returned is the first child carrying the name. None is returned exactly when no child carries it. |
| Tree.FindFrom | api/fs/vfs.hpp:260-264 | The linear scan returns the first matching position at or after k, given that no earlier child matches. None means no child matches at all. |
| Tree.InsertParent | api/fs/vfs.hpp:266-269 | insert_parent appends one child: an empty, object-less node of the null type named token, described "Directory". Existing children and the node's own fields are unchanged. |
| Tree.Insert | api/fs/vfs.hpp:271-275 | insert appends one childless leaf. The leaf borrows obj under token, with the given description, type tag and const flag. Existing children and the node's own fields are unchanged. |
| Tree.Append | api/fs/vfs.hpp:266-275 | Appending keeps every existing child in place and puts the new one last. The node's own fields are unchanged. |
| Tree.AppendLookup | api/fs/vfs.hpp:260-275 | After an append, every name that already resolved still resolves to the same child. The new child is visible under its name only when no older child holds that name. |
| Walking.WalkFrom | api/fs/vfs.hpp:187-219 | A successful walk ends at a node reached by first-match steps whose names are exactly the consumed tokens. Tokens are left over only in a partial walk halted at a Dirent-typed node that lacks the next name. The tree only gains "Directory" nodes, and a non-creating walk leaves it unchanged. A creating walk never returns null, and a creating, non-partial walk consumes the whole path. |
| Walking.Walk | api/fs/vfs.hpp:187-219 | The same guarantees as WalkFrom, for the non-empty paths walk requires. |
| Walking.WalkFollows | api/fs/vfs.hpp:187-219 | If the path already names a node, the walk reaches exactly that node for any flags, consumes everything and creates nothing. |
| Walking.WalkNoneIffStuck | api/fs/vfs.hpp:199-207 | A non-creating walk returns null if and only if some resolved prefix of the path names a node that lacks the next token. For a partial walk, that node must also not be Dirent-typed. |
| Walking.CreateWalkAgrees | api/fs/vfs.hpp:195-216 | Where a non-creating walk succeeds, the creating walk returns the same node and tree: creation only happens on a miss. |
| Walking.CreatedTargetIsEmpty | api/fs/vfs.hpp:195-216 | A creating walk that had to create something ends on a childless node. |
| Walking.DepthResolves | api/fs/vfs.hpp:195-206 | The number of tokens a walk resolves without creating is the length of the longest resolving prefix. Some address carries that prefix, and the node there lacks the next token. |
| Walking.PartialWalkStopsAt | api/fs/vfs.hpp:195-219 | A partial, non-creating walk whose longest resolving prefix ends the path or ends on a Dirent-typed node stops at that node, with the tree unchanged and exactly the unconsumed suffix left in the path. |
| Walking.WalkCreatesMissing | api/fs/vfs.hpp:195-216 | A creating walk adds exactly one node per token after the longest prefix that already resolves. |
| Walking.WalkAgainCreatesNothing | api/fs/vfs.hpp:195-216 | Repeating a walk after a creating walk reaches the same node in the same tree, whatever the flags. |
| Walking.WalkKeepsWellNamed | api/fs/vfs.hpp:195-216 | If no two siblings shared a name before a walk, none do after it, since insert_parent is used only on a miss. |
| EntryMount.MountLeaf | api/fs/vfs.hpp:239-258 | The private mount fails MountpointInvalid, leaving the tree unchanged, exactly when the mount point is occupied or, without creation, its parent is missing. Otherwise the leaf is reachable at the path with the given object, type and const flag. In that case the new tree is the old one grown by object-less, null-typed "Directory" parents only, with the leaf inserted under the parent. No existing node changed, exactly the missing parents plus the leaf were added, and sibling names stay unique. |
| EntryMount.MountFreeSound | api/fs/vfs.hpp:243-257 | Inserting under a parent that lacks the token means the mount point was free. The leaf lands at the full path and the tree grows by the created parents and the leaf. |
| EntryMount.MountTwiceFails | api/fs/vfs.hpp:252-254 | A second mount at a path that was mounted successfully fails MountpointInvalid and changes nothing, whatever is mounted and however the path flag is set. |
| Registry.Init | api/fs/vfs.hpp:404-422 | The initial state holds a childless, object-less root "/" described "Root directory", with no disks and no dirents. |
| Registry.Get | api/fs/vfs.hpp:318-328 | get fails NotFound exactly when no node carries the path's names. Otherwise it returns what typed retrieval says about that node. |
| Registry.Mount | api/fs/vfs.hpp:299-303 | A mount on the root changes neither the disk map nor the dirent cache. It fails exactly when the mount point is occupied or, without creation, its parent is missing. A failure is MountpointInvalid and leaves the state as it was. On success, get with the mounted type returns the object. The new root is the old one grown by "Directory" parents only, with the leaf inserted under the parent, and the root's identity and unique sibling names are kept. |
| Registry.MountThenGet | api/fs/vfs.hpp:128-143 | After a successful mount, get returns the object exactly when the type matches and the request is const or the object is mutable. Any other request fails BadCast. |
| Registry.LookupSurvivesGrowth | api/fs/vfs.hpp:239-258 | A path that resolved keeps its get result across any change that only adds nodes and keeps existing ones, which is what a successful mount does. |
| Registry.NamesPathUnique | api/fs/vfs.hpp:260-264 | Under first-match lookup, at most one node carries a given path. |
| Registry.Stat | api/fs/vfs.hpp:331-357 | stat and stat_sync fail NotFound exactly when the partial walk gets stuck. Otherwise the node reached carries a prefix of the path. If that node holds a mutable Dirent, the object and the unconsumed suffix are handed to the dirent, and the suffix starts with a name the node lacks. If it does not, typed retrieval's NotLeaf or BadCast is raised. |
| Registry.StatFindsDirent | api/fs/vfs.hpp:331-357 | When the node at the end of the longest resolving prefix ends the path or is Dirent-typed, stat and stat_sync reach exactly that node. If it holds a mutable Dirent, that Dirent receives the unconsumed suffix; otherwise typed retrieval's NotLeaf or BadCast is raised. |
| Registry.InsertDisk | api/fs/vfs.hpp:364-368 | insert_disk leaves the device name mapped to the returned handle. An existing entry wins, and the map is otherwise unchanged. |
| Registry.InsertDiskFirstWins | api/fs/vfs.hpp:364-368 | Repeating insert_disk returns the handle already registered and changes nothing. |
| Registry.MountDevice | api/fs/vfs.hpp:428-433 | Mounting a block device registers its disk and mounts the registered, mutable Disk_ptr handle, creating the path, so it fails exactly when the mount point is occupied. The disk map is the one insert_disk produced, whatever the outcome, and the dirent cache is unchanged. On success, get of a Disk_ptr at the path returns the registered handle, and the only nodes added besides that leaf are "Directory" parents. A failure is MountpointInvalid with the tree unchanged. |
| Registry.SameDeviceSameHandle | api/fs/vfs.hpp:428-433 | Mounting one block device twice leaves one handle registered: the first made, or the one already there. When both mounts succeed, get of a Disk_ptr at either path returns that handle. |
| Dirents.RequestDirent | api/fs/vfs.hpp:370-381 | insert_dirent raises NotFound exactly for an unknown disk and NotMounted exactly for a disk without a file system. Otherwise it issues the stat for (disk, path). |
| Dirents.CompleteDirent | api/fs/vfs.hpp:383-397 | A stat error raises NotFound and changes nothing. A found dirent is stored and delivered when its key is new. When the key is already cached, the cache is left alone and the placeholder is delivered. Cached entries are never replaced, and the tree and disks are untouched. |
| Dirents.CachedKeyStaysPut | api/fs/vfs.hpp:388-396 | Once a key is cached, any sequence of further completions leaves the state unchanged and delivers only placeholders or errors. |
| Dirents.OnlyFirstResolutionDelivered | api/fs/vfs.hpp:388-396 | In any sequence of completions for one key, every completion after one that found a dirent delivers the placeholder or an error. |
| Dirents.FirstResolutionWins | api/fs/vfs.hpp:388-396 | Of two resolutions of a fresh key, the first is stored and delivered. The second delivers the placeholder and leaves the cache holding the first. |
| Dirents.RequestRemoteMount | api/fs/vfs.hpp:306-315 | The asynchronous mount raises the insert_dirent request's errors at once, and otherwise records the local path and description for the completion. |
| Dirents.CompleteRemoteMount | api/fs/vfs.hpp:310-313 | The completion mounts whichever dirent insert_dirent delivered at the local path, creating the path, and reaches the user callback exactly on success. In that case get of a mutable Dirent there returns the delivered dirent, and the only nodes added besides that leaf are "Directory" parents. A stat error changes nothing. Once a dirent is delivered, the mount fails exactly when the local path is occupied; the failure is MountpointInvalid and keeps the cache update. |
| Dirents.SecondRemoteMountGetsPlaceholder | api/fs/vfs.hpp:306-315 | After two asynchronous mounts of one fresh (disk, remote) pair, the cache holds the first resolution whatever happened to the mounts. When both mounts succeed, the first local path holds the resolved dirent and the second holds the placeholder. |
| TypeNames.SizeSub | api/fs/vfs.hpp:47-48 | size_t subtraction wraps modulo 2^64. |
| TypeNames.TruncateAsWritten | api/fs/vfs.hpp:47-50 | With no limit, or a short name, the name is unchanged. A limit of 3 or more gives a result of exactly that length. A limit of 1 or 2 gives a result longer than the limit. |
| TypeNames.TruncateAsWrittenOverflows | api/fs/vfs.hpp:47-48 | "int" with max_chars 1 comes back as "int...". |
| TypeNames.Truncate | api/fs/vfs.hpp:47-50 | With a limit set, the result never exceeds it. A long name is cut to exactly the limit, and ends in "..." when the limit leaves room for it. |
| TypeNames.TruncateAgrees | api/fs/vfs.hpp:47-50 | The corrected truncation equals the written one if and only if the limit is 0 or at least 3, or the name is already short enough. |

## Left out

- print_tree, fs::print_tree and the INFO, FILLINE and CENTER logging write to the console and compute nothing else.
- __cxa_demangle and typeid are the C++ runtime. Type names and exception messages are not modelled, so errors carry no text.
- The global fs:: wrappers (mount, root, get, stat_sync, stat) forward to VFS and only add the default description "N/A". They are not modelled separately.
- Object lifetimes are not modelled. The tree borrows objects by pointer, and a dirent delivered to a callback is a copy that may dangle. Objects here are plain values.
- Disk, FileSystem and Dirent::stat are not part of this model. fs_mounted() is the set of disks with a file system, and the stat outcome is an input to the completion. A second raise from within the asynchronous stat, or what the dirent's own stat does with the rest of the path, is outside the tree.
- Path::to_string is not part of this model. The dirent cache is keyed by the token sequence, which assumes that distinct paths print differently.
- Walking on an empty path reads path.front() of an empty Path, which is undefined behaviour. Walk therefore requires a non-empty path, and mount requires at least two tokens (a parent and a name).
- Err_not_parent is declared in the source but never thrown, so it is not modelled.
- Tree.ChildCount is the length of the children list. It is used in contracts and has no contract of its own.
- The stat callback's error argument reaches the user callback of the asynchronous mount only as "no error", because an error is raised before the callback runs. CompleteRemoteMount therefore reports success as Ok.
- Concurrency is not modelled. Completions run one at a time, in the order given.

## Findings

| source | as written | input that shows it | evidently intended | confidence | as-written member | corrected member |
|---|---|---|---|---|---|---|
| api/fs/vfs.hpp:47-48 | `result.substr(0, max_chars - 3) + "..."` with `size_t max_chars`: for max_chars 1 or 2 the count wraps to nearly 2^64, so nothing is cut and "..." is appended | type_name of `int` with max_chars = 1 gives "int..." (6 characters) | a result no longer than max_chars | medium, not executed; the call sites in this file pass 0 or 20 | TypeNames.TruncateAsWritten, TypeNames.TruncateAsWrittenOverflows | TypeNames.Truncate, TypeNames.TruncateAgrees |

=== FILE: dirents.dfy ===
/** VFS::insert_dirent and the asynchronous mount(local, disk, remote, ...)
    built on it, as explicit request and completion steps. The request runs
    synchronously; the completion is the file system's stat callback, whose
    (error, dirent) outcome is an input. */
module Dirents {
  import opened Errors
  import opened Objects
  import opened Tree
  import opened EntryMount
  import opened Registry

  /** What the file system's stat hands to the callback. */
  datatype FsStat = FsError | FsFound(dirent: Dirent)

  /** insert_dirent, up to the asynchronous stat call: NotFound for an
      unknown disk, NotMounted for a disk without a file system (hasFs is
      the set of disks that currently have one). The stat callback
      captures the (disk, path) key it will cache the dirent under. */
  function RequestDirent(v: Vfs, disk: string, path: seq<string>, hasFs: set<DiskHandle>): (r: Result<DirentKey>)
    ensures r == Err(NotFound) <==> disk !in v.disks
    ensures r == Err(NotMounted) <==> disk in v.disks && v.disks[disk] !in hasFs
    ensures r.Ok? <==> disk in v.disks && v.disks[disk] in hasFs
    ensures r.Ok? ==> r.value == DirentKey(disk, path)
  {
    if disk !in v.disks then Err(NotFound)
    else if v.disks[disk] !in hasFs then Err(NotMounted)
    else Ok(DirentKey(disk, path))
  }

  /** The stat callback of insert_dirent. A stat error is raised as NotFound
      and nothing is delivered. Otherwise the dirent goes into the cache if
      its key is absent: the first resolution for a key is stored and
      delivered, every later one leaves the cache alone and delivers the
      placeholder. Cached entries are never replaced. */
  function CompleteDirent(v: Vfs, key: DirentKey, res: FsStat): (r: Step<Dirent>)
    ensures r.state.root == v.root && r.state.disks == v.disks
    ensures forall k :: k in v.dirents ==> k in r.state.dirents && r.state.dirents[k] == v.dirents[k]
    ensures r.result.Ok? <==> res.FsFound?
    ensures res.FsError? ==> r.state == v && r.result == Err(NotFound)
    ensures res.FsFound? && key !in v.dirents ==>
      r.state.dirents == v.dirents[key := res.dirent] && r.result.value == res.dirent
    ensures key in v.dirents ==> r.state == v && (r.result.Ok? ==> r.result.value == InvalidDirent)
  {
    match res
    case FsError => Step(v, Err(NotFound))
    case FsFound(d) =>
      if key in v.dirents then Step(v, Ok(InvalidDirent))
      else Step(v.(dirents := v.dirents[key := d]), Ok(d))
  }

  /** Several stat callbacks for the same request, in order: the final state
      and what each one raised or delivered. */
  function CompleteAll(v: Vfs, key: DirentKey, results: seq<FsStat>): (r: (Vfs, seq<Result<Dirent>>))
    ensures |r.1| == |results|
    decreases |results|
  {
    if results == [] then (v, [])
    else
      var s := CompleteDirent(v, key, results[0]);
      var rest := CompleteAll(s.state, key, results[1..]);
      (rest.0, [s.result] + rest.1)
  }

  /** A completion that delivered nothing new: the placeholder, or the error. */
  predicate Placeholder(d: Result<Dirent>) {
    d == Ok(InvalidDirent) || d == Err(NotFound)
  }

  /** Once a key is cached, every further completion for it leaves the
      state alone and delivers the placeholder (or raises). */
  lemma {:induction false} CachedKeyStaysPut(v: Vfs, key: DirentKey, results: seq<FsStat>)
    requires key in v.dirents
    ensures CompleteAll(v, key, results).0 == v
    ensures forall j :: 0 <= j < |results| ==> Placeholder(CompleteAll(v, key, results).1[j])
    decreases |results|
  {
    if results != [] {
      CachedKeyStaysPut(v, key, results[1..]);
    }
  }

  /** Only the first successful resolution for a key is ever delivered:
      every completion after one that found a dirent delivers the placeholder. */
  lemma {:induction false} OnlyFirstResolutionDelivered(v: Vfs, key: DirentKey, results: seq<FsStat>)
    ensures forall i, j :: 0 <= i < j < |results| && results[i].FsFound? ==>
      Placeholder(CompleteAll(v, key, results).1[j])
    decreases |results|
  {
    if results != [] {
      var s := CompleteDirent(v, key, results[0]);
      var out := CompleteAll(v, key, results).1;
      var tail := CompleteAll(s.state, key, results[1..]).1;
      assert forall j :: 1 <= j < |results| ==> out[j] == tail[j - 1];
      if results[0].FsFound? {
        CachedKeyStaysPut(s.state, key, results[1..]);
      }
      OnlyFirstResolutionDelivered(s.state, key, results[1..]);
      forall i, j | 0 <= i < j < |results| && results[i].FsFound?
        ensures Placeholder(out[j])
      {
        if i > 0 {
          assert results[1..][i - 1] == results[i];
        }
      }
    }
  }

  /** Two resolutions of the same fresh key: the first is stored and
      delivered, the second delivers the placeholder and the cache keeps
      the first. */
  lemma FirstResolutionWins(v: Vfs, key: DirentKey, d1: Dirent, d2: Dirent)
    requires key !in v.dirents
    ensures var s1 := CompleteDirent(v, key, FsFound(d1));
      var s2 := CompleteDirent(s1.state, key, FsFound(d2));
      && s1.result == Ok(d1) && s2.result == Ok(InvalidDirent)
      && s2.state == s1.state && s2.state.dirents[key] == d1
  {
  }

  /** What the asynchronous mount's callback captures. */
  datatype RemoteMount = RemoteMount(local: seq<string>, desc: string, lookup: DirentKey)

  /** mount(local, disk, remote, desc, callback), synchronous part: the
      insert_dirent request, whose errors are raised at once. */
  function RequestRemoteMount(v: Vfs, local: seq<string>, disk: string, remote: seq<string>, desc: string,
                              hasFs: set<DiskHandle>): (r: Result<RemoteMount>)
    ensures r.Err? <==> disk !in v.disks || v.disks[disk] !in hasFs
    ensures r.Err? ==> r == Err(if disk !in v.disks then NotFound else NotMounted)
    ensures r.Ok? ==> r.value == RemoteMount(local, desc, DirentKey(disk, remote))
  {
    match RequestDirent(v, disk, remote, hasFs)
    case Err(e) => Err(e)
    case Ok(key) => Ok(RemoteMount(local, desc, key))
  }

  /** The completion of the asynchronous mount: the insert_dirent callback,
      then a creating mount at `local` of whatever dirent it delivered (the
      placeholder included), then the user callback, which is reached
      exactly when the result is Ok. A stat error or an occupied `local`
      (and nothing else: the path is created) is raised instead; the dirent stays cached in the latter case. */
  function CompleteRemoteMount(v: Vfs, req: RemoteMount, res: FsStat): (r: Step<()>)
    requires |req.local| >= 2
    ensures r.state.disks == v.disks
    ensures res.FsError? ==> r == Step(v, Err(NotFound))
    ensures res.FsFound? ==> r.state.dirents == CompleteDirent(v, req.lookup, res).state.dirents
    ensures r.result.Err? ==> r.state.root == v.root
    ensures res.FsFound? && r.result.Err? ==> r.result.error == MountpointInvalid
    ensures res.FsFound? ==> (r.result.Err? <==> Occupied(v.root, req.local))
    ensures r.result.Ok? ==>
      var delivered := if req.lookup in v.dirents then InvalidDirent else res.dirent;
      Get(r.state, req.local, DirentTag, false) == Ok(DirentObj(delivered))
    ensures r.result.Ok? ==> Grows(v.root, r.state.root, false)
    ensures r.result.Ok? ==>
      var delivered := if req.lookup in v.dirents then InvalidDirent else res.dirent;
      exists t, a ::
        && Grows(v.root, t, true) && NamesPath(t, a, Parent(req.local))
        && r.state.root == ReplaceAt(t, a, Insert(At(t, a), Last(req.local), DirentObj(delivered), req.desc, DirentTag, false))
    ensures Valid(v) ==> Valid(r.state)
  {
    var s := CompleteDirent(v, req.lookup, res);
    match s.result
    case Err(e) => Step(s.state, Err(e))
    case Ok(d) => Mount(s.state, req.local, DirentObj(d), req.desc, DirentTag, false, true)
  }

  /** Two asynchronous mounts of the same (disk, remote) pair: the cache
      keeps the first resolution whatever happens to the mounts, and when
      both mounts succeed the first local path holds the resolved dirent
      and the second the placeholder. */
  lemma SecondRemoteMountGetsPlaceholder(v: Vfs, l1: seq<string>, l2: seq<string>, desc1: string, desc2: string,
                                         lookup: DirentKey, d1: Dirent, d2: Dirent)
    requires |l1| >= 2 && |l2| >= 2 && lookup !in v.dirents
    ensures var s1 := CompleteRemoteMount(v, RemoteMount(l1, desc1, lookup), FsFound(d1));
      var s2 := CompleteRemoteMount(s1.state, RemoteMount(l2, desc2, lookup), FsFound(d2));
      && lookup in s2.state.dirents && s2.state.dirents[lookup] == d1
      && (s1.result.Ok? && s2.result.Ok? ==>
            && Get(s2.state, l1, DirentTag, false) == Ok(DirentObj(d1))
            && Get(s2.state, l2, DirentTag, false) == Ok(DirentObj(InvalidDirent)))
  {
    var s1 := CompleteRemoteMount(v, RemoteMount(l1, desc1, lookup), FsFound(d1));
    var s2 := CompleteRemoteMount(s1.state, RemoteMount(l2, desc2, lookup), FsFound(d2));
    if s1.result.Ok? && s2.result.Ok? {
      LookupSurvivesGrowth(s1.state, s2.state, l1, DirentTag, false);
    }
  }
}

=== FILE: errors.dfy ===
/** Failure-carrying datatypes for the VFS model, and the error kinds it raises. */
module Errors {

  /** The exception kinds the VFS raises. Err_not_parent is declared in the
      source but never raised, so it has no counterpart here. */
  datatype Error =
    | NotLeaf            // object access on a node that holds no object
    | BadCast            // wrong type tag, or a const object requested as mutable
    | NotFound           // no node at the path, unknown disk, or a failed dirent stat
    | MountpointInvalid  // occupied mount point, or missing parent when creation is off
    | NotMounted         // the disk exists but has no file system (Disk::Err_not_mounted)

  /** Present or absent, used where the source returns a possibly-null pointer. */
  datatype Option<+T> = None | Some(value: T)

  /** A value, or the error the source would have thrown. */
  datatype Result<+T> = Ok(value: T) | Err(error: Error)
}

=== FILE: mount.dfy ===
/** VFS_entry::mount (private): split off the last token, walk to the
    parent, refuse an occupied name, append the leaf. */
module EntryMount {
  import opened Errors
  import opened Objects
  import opened Tree
  import opened Walking

  /** The tree after a mount attempt, and whether it succeeded. On failure
      the tree is whatever the parent walk left behind. */
  datatype Mounted = Mounted(tree: Entry, status: Result<()>)

  function Parent(path: seq<string>): seq<string>
    requires |path| > 0
  {
    path[..|path| - 1]
  }

  function Last(path: seq<string>): string
    requires |path| > 0
  {
    path[|path| - 1]
  }

  /** All but the last token of path name a node. */
  ghost predicate ParentExists(t: Entry, path: seq<string>)
    requires |path| > 0
  {
    exists a :: NamesPath(t, a, Parent(path))
  }

  /** The node named by all but the last token already has a child named by the last. */
  ghost predicate Occupied(t: Entry, path: seq<string>)
    requires |path| > 0
  {
    exists a :: NamesPath(t, a, Parent(path)) && HasChild(At(t, a), Last(path))
  }

  /** mount<create>(path, obj, desc). Fails MountpointInvalid, with the tree
      unchanged, when the mount point is occupied or, creation being off,
      its parent is missing. Otherwise the leaf is reachable at `path`, no
      existing node changed, exactly the missing parent directories and the
      leaf were added, and sibling names stay unique. The tree is the leaf
      inserted under the parent in a tree that grew from the old one by
      "Directory" nodes only. */
  function MountLeaf(root: Entry, path: seq<string>, obj: Obj, desc: string, tag: TypeTag, isConst: bool, create: bool): (r: Mounted)
    requires |path| >= 2
    ensures r.status.Err? ==> r.status.error == MountpointInvalid && r.tree == root
    ensures r.status.Err? <==> Occupied(root, path) || (!create && !ParentExists(root, path))
    ensures r.status.Ok? ==>
      exists a :: NamesPath(r.tree, a, path) && At(r.tree, a) == Leaf(obj, Last(path), desc, tag, isConst)
    ensures r.status.Ok? ==> Grows(root, r.tree, false)
    ensures r.status.Ok? ==> exists t, a ::
      && Grows(root, t, true) && NamesPath(t, a, Parent(path))
      && r.tree == ReplaceAt(t, a, Insert(At(t, a), Last(path), obj, desc, tag, isConst))
    ensures r.status.Ok? ==> Size(r.tree) == Size(root) + |path| - Depth(root, Parent(path))
    ensures WellNamed(root) ==> WellNamed(r.tree)
  {
    var init := Parent(path);
    match Walk(root, init, create, false)
    case None =>
      NoParentWhenWalkFails(root, init);
      Mounted(root, Err(MountpointInvalid))
    case Some(w) =>
      var parent := At(w.tree, w.addr);
      if GetChild(parent, Last(path)).Some? then
        OccupiedParentExisted(root, init, Last(path), create);
        Mounted(w.tree, Err(MountpointInvalid))
      else
        var leaf := Leaf(obj, Last(path), desc, tag, isConst);
        assert PathNames(w.tree, w.addr) + [] == init;
        MountFreeSound(root, path, create, w, leaf);
        Mounted(ReplaceAt(w.tree, w.addr, Insert(parent, Last(path), obj, desc, tag, isConst)), Ok(()))
  }

  /** Appending the leaf under a free parent: the mount point was neither
      occupied nor, without creation, missing, and the appended tree has
      the properties a successful mount promises. */
  lemma MountFreeSound(root: Entry, path: seq<string>, create: bool, w: Walked, leaf: Entry)
    requires |path| >= 2 && leaf.children == [] && leaf.name == Last(path)
    requires Walk(root, Parent(path), create, false) == Some(w)
    requires GetChild(At(w.tree, w.addr), Last(path)).None?
    ensures !Occupied(root, path) && (create || ParentExists(root, path))
    ensures var t := ReplaceAt(w.tree, w.addr, Append(At(w.tree, w.addr), leaf));
      && (exists a :: NamesPath(t, a, path) && At(t, a) == leaf)
      && Grows(root, t, false)
      && Size(t) == Size(root) + |path| - Depth(root, Parent(path))
      && (WellNamed(root) ==> WellNamed(t))
  {
    FreeMountPoint(root, path, create, w);
    FreeMountLeaf(root, path, create, w, leaf);
  }

  /** A parent found free means the mount point was free, and without
      creation the parent was already there. */
  lemma FreeMountPoint(root: Entry, path: seq<string>, create: bool, w: Walked)
    requires |path| >= 2
    requires Walk(root, Parent(path), create, false) == Some(w)
    requires GetChild(At(w.tree, w.addr), Last(path)).None?
    ensures !Occupied(root, path) && (create || ParentExists(root, path))
  {
    FreeParentIsUnique(root, Parent(path), Last(path), create);
  }

  /** The leaf appended under a free parent sits at the whole path. */
  lemma FreeMountLeaf(root: Entry, path: seq<string>, create: bool, w: Walked, leaf: Entry)
    requires |path| >= 2 && leaf.children == [] && leaf.name == Last(path)
    requires Walk(root, Parent(path), create, false) == Some(w)
    requires GetChild(At(w.tree, w.addr), Last(path)).None?
    ensures var t := ReplaceAt(w.tree, w.addr, Append(At(w.tree, w.addr), leaf));
      && (exists a :: NamesPath(t, a, path) && At(t, a) == leaf)
      && Grows(root, t, false)
      && Size(t) == Size(root) + |path| - Depth(root, Parent(path))
      && (WellNamed(root) ==> WellNamed(t))
  {
    var init := Parent(path);
    assert init + [leaf.name] == path;
    InsertLeafSound(root, init, create, w, leaf);
  }

  /** A failed non-creating walk means no node carries those names. */
  lemma NoParentWhenWalkFails(root: Entry, init: seq<string>)
    requires |init| > 0 && Walk(root, init, false, false).None?
    ensures !exists a :: NamesPath(root, a, init)
  {
    if a :| NamesPath(root, a, init) {
      WalkFollows(root, a, init, false, false);
    }
  }

  /** A parent found occupied was there before the walk: the walk created nothing. */
  lemma OccupiedParentExisted(root: Entry, init: seq<string>, token: string, create: bool)
    requires |init| > 0
    requires Walk(root, init, create, false).Some?
    requires var w := Walk(root, init, create, false).value; HasChild(At(w.tree, w.addr), token)
    ensures var w := Walk(root, init, create, false).value;
      w.tree == root && NamesPath(root, w.addr, init) && HasChild(At(root, w.addr), token)
  {
    var w := Walk(root, init, create, false).value;
    if WalkFrom(root, init, false, false).Some? {
      CreateWalkAgrees(root, init, false);
    } else {
      CreatedTargetIsEmpty(root, init);
    }
    assert PathNames(w.tree, w.addr) + [] == init;
  }

  /** When the parent has no child by that name, no node named by the
      parent path is occupied, and a non-creating walk found the parent. */
  lemma FreeParentIsUnique(root: Entry, init: seq<string>, token: string, create: bool)
    requires |init| > 0
    requires Walk(root, init, create, false).Some?
    requires var w := Walk(root, init, create, false).value; !HasChild(At(w.tree, w.addr), token)
    ensures !exists a :: NamesPath(root, a, init) && HasChild(At(root, a), token)
    ensures !create ==> exists a :: NamesPath(root, a, init)
  {
    var w := Walk(root, init, create, false).value;
    assert PathNames(w.tree, w.addr) + [] == init;
    forall a | NamesPath(root, a, init)
      ensures !HasChild(At(root, a), token)
    {
      WalkFollows(root, a, init, false, false);
      CreateWalkAgrees(root, init, false);
    }
    if !create {
      assert NamesPath(root, w.addr, init);
    }
  }

  /** Appending a leaf under the walked-to parent lands it at the path,
      changes no existing node, adds one node, and keeps names unique. */
  lemma InsertLeafSound(root: Entry, init: seq<string>, create: bool, w: Walked, leaf: Entry)
    requires |init| > 0 && leaf.children == []
    requires Walk(root, init, create, false) == Some(w)
    requires !HasChild(At(w.tree, w.addr), leaf.name)
    ensures exists a :: NamesPath(ReplaceAt(w.tree, w.addr, Append(At(w.tree, w.addr), leaf)), a, init + [leaf.name])
                     && At(ReplaceAt(w.tree, w.addr, Append(At(w.tree, w.addr), leaf)), a) == leaf
    ensures Grows(root, ReplaceAt(w.tree, w.addr, Append(At(w.tree, w.addr), leaf)), false)
    ensures Size(ReplaceAt(w.tree, w.addr, Append(At(w.tree, w.addr), leaf))) == Size(root) + |init| + 1 - Depth(root, init)
    ensures WellNamed(root) ==> WellNamed(ReplaceAt(w.tree, w.addr, Append(At(w.tree, w.addr), leaf)))
  {
    var parent := At(w.tree, w.addr);
    var n := Append(parent, leaf);
    var t2 := ReplaceAt(w.tree, w.addr, n);
    assert PathNames(w.tree, w.addr) + [] == init;
    LeafPlacement(w.tree, w.addr, init, leaf);
    GrowsWeaken(root, w.tree);
    AppendGrows(parent, leaf);
    ReplaceAtGrows(w.tree, w.addr, n);
    GrowsTrans(root, w.tree, t2);
    LeafSize(root, init, create, w, leaf);
    if WellNamed(root) {
      WalkKeepsWellNamed(root, init, create, false);
      LeafKeepsWellNamed(w.tree, w.addr, leaf);
    }
  }

  /** The mounted tree has one node more than the walk left behind. */
  lemma LeafSize(root: Entry, init: seq<string>, create: bool, w: Walked, leaf: Entry)
    requires |init| > 0 && leaf.children == []
    requires Walk(root, init, create, false) == Some(w)
    ensures Size(ReplaceAt(w.tree, w.addr, Append(At(w.tree, w.addr), leaf))) == Size(root) + |init| + 1 - Depth(root, init)
  {
    var parent := At(w.tree, w.addr);
    var n := Append(parent, leaf);
    if !create {
      CreateWalkAgrees(root, init, false);
    }
    WalkCreatesMissing(root, init);
    var walked := Size(w.tree);
    assert walked == Size(root) + |init| - Depth(root, init);
    ReplaceAtSize(w.tree, w.addr, n);
    SizeOfAppend(parent.children, leaf);
    assert Size(leaf) == 1;
    assert Size(n) == Size(parent) + 1;
  }

  /** A leaf appended under the node at addr sits at addr's names plus its own. */
  lemma LeafPlacement(t: Entry, addr: seq<nat>, init: seq<string>, leaf: Entry)
    requires NamesPath(t, addr, init) && !HasChild(At(t, addr), leaf.name)
    ensures var t2 := ReplaceAt(t, addr, Append(At(t, addr), leaf));
      exists a :: NamesPath(t2, a, init + [leaf.name]) && At(t2, a) == leaf
  {
    var parent := At(t, addr);
    var n := Append(parent, leaf);
    var t2 := ReplaceAt(t, addr, n);
    var k := |parent.children|;
    ReplaceAtAddr(t, addr, n);
    AddrSnoc(t2, addr, k);
    assert n.children[k] == leaf;
    assert IsFirst(n.children, k) by {
      assert forall j :: 0 <= j < k ==> n.children[j] == parent.children[j];
    }
    assert NamesPath(t2, addr + [k], init + [leaf.name]);
  }

  /** Appending a leaf with a fresh name keeps a well-named tree well-named. */
  lemma LeafKeepsWellNamed(t: Entry, addr: seq<nat>, leaf: Entry)
    requires ValidAddr(t, addr) && WellNamed(t) && leaf.children == []
    requires !HasChild(At(t, addr), leaf.name)
    ensures WellNamed(ReplaceAt(t, addr, Append(At(t, addr), leaf)))
  {
    var parent := At(t, addr);
    WellNamedAt(t, addr);
    AppendWellNamed(parent, leaf);
    ReplaceAtWellNamed(t, addr, Append(parent, leaf));
  }

  /** After a successful mount, mounting again at the same path fails and
      changes nothing, whatever is mounted and whatever the creation flag. */
  lemma {:induction false} MountTwiceFails(root: Entry, path: seq<string>, obj: Obj, desc: string, tag: TypeTag, isConst: bool, create: bool,
                                           obj2: Obj, desc2: string, tag2: TypeTag, isConst2: bool, create2: bool)
    requires |path| >= 2
    requires MountLeaf(root, path, obj, desc, tag, isConst, create).status.Ok?
    ensures var t := MountLeaf(root, path, obj, desc, tag, isConst, create).tree;
      MountLeaf(t, path, obj2, desc2, tag2, isConst2, create2) == Mounted(t, Err(MountpointInvalid))
  {
    var t := MountLeaf(root, path, obj, desc, tag, isConst, create).tree;
    var a :| NamesPath(t, a, path) && At(t, a) == Leaf(obj, Last(path), desc, tag, isConst);
    NamedPathIsOccupied(t, path, a);
  }

  /** A node carrying the whole path makes the path an occupied mount point. */
  lemma NamedPathIsOccupied(t: Entry, path: seq<string>, a: seq<nat>)
    requires |path| >= 2 && NamesPath(t, a, path)
    ensures Occupied(t, path)
  {
    PathNamesLength(t, a);
    var n := |a| - 1;
    assert a == a[..n] + [a[n]];
    ValidPrefix(t, a, n);
    AddrSnoc(t, a[..n], a[n]);
    assert PathNames(t, a[..n]) == Parent(path);
    assert HasChild(At(t, a[..n]), Last(path)) by {
      assert At(t, a[..n]).children[a[n]].name == Last(path);
    }
  }
}

=== FILE: objects.dfy ===
/** The opaque values a VFS node can borrow, and their runtime type tags. */
module Objects {

  /** Runtime type identity of a mounted object. Like typeid, it ignores
      top-level const: const-ness is recorded separately in each node. */
  datatype TypeTag =
    | NullTag      // the tag of a pure directory node (typeid(nullptr))
    | DirentTag    // a file-system directory entry: the boundary of a partial walk
    | DiskPtrTag   // a shared disk handle, what a block-device mount stores
    | Tag(id: nat) // any other type

  /** Identity of a shared Disk object; allocation is external to the model. */
  datatype DiskHandle = DiskHandle(id: nat)

  /** A directory-entry value produced by a file system. InvalidDirent is the
      distinguished placeholder handed out for a repeated resolution. */
  datatype Dirent = InvalidDirent | ResolvedDirent(id: nat)

  /** A borrowed object. Object ids stand for addresses of caller-owned objects;
      dirents and disk handles are carried by value. */
  datatype Obj =
    | Object(id: nat)
    | DirentObj(dirent: Dirent)
    | DiskObj(disk: DiskHandle)
}

=== FILE: registry.dfy ===
/** VFS: the registry holding the root of the tree, the disk map and the
    dirent cache, with the synchronous mount/get/stat API over it. The
    function-local statics of the source become one explicit state value. */
module Registry {
  import opened Errors
  import opened Objects
  import opened Tree
  import opened Walking
  import opened EntryMount

  /** Key of the dirent cache: disk name and remote path, the path kept as
      its token sequence. */
  datatype DirentKey = DirentKey(disk: string, path: seq<string>)

  /** The root node, the disks by device name, the resolved dirents. */
  datatype Vfs = Vfs(root: Entry, disks: map<string, DiskHandle>, dirents: map<DirentKey, Dirent>)

  /** The state after an operation, and its result. */
  datatype Step<+T> = Step(state: Vfs, result: Result<T>)

  /** The root keeps its identity and sibling names stay unique. */
  ghost predicate Valid(v: Vfs) {
    && v.root.name == "/" && v.root.desc == "Root directory"
    && v.root.tag == NullTag && v.root.obj.None?
    && WellNamed(v.root)
  }

  /** The state before anything is mounted. */
  function Init(): (v: Vfs)
    ensures Valid(v) && v.disks == map[] && v.dirents == map[]
    ensures v.root.children == []
  {
    Vfs(Directory("/", "Root directory"), map[], map[])
  }

  /** get<T>(path): a non-creating, non-partial walk, then checked typed
      retrieval. NotFound exactly when no node carries the path's names;
      otherwise whatever typed retrieval says about that node. */
  function Get(v: Vfs, path: seq<string>, want: TypeTag, wantConst: bool): (r: Result<Obj>)
    requires |path| > 0
    ensures r == Err(NotFound) <==> !exists a :: NamesPath(v.root, a, path)
    ensures forall a :: NamesPath(v.root, a, path) ==> r == TypedObj(At(v.root, a), want, wantConst)
  {
    match Walk(v.root, path, false, false)
    case None =>
      NoParentWhenWalkFails(v.root, path);
      Err(NotFound)
    case Some(w) =>
      assert PathNames(w.tree, w.addr) + [] == path;
      assert NamesPath(v.root, w.addr, path);
      NamesPathUnique(v.root, path);
      TypedObj(At(w.tree, w.addr), want, wantConst)
  }

  /** At most one address carries a given path under first-match lookup. */
  lemma NamesPathUnique(t: Entry, path: seq<string>)
    ensures forall a, b :: NamesPath(t, a, path) && NamesPath(t, b, path) ==> a == b
  {
    forall a, b | NamesPath(t, a, path) && NamesPath(t, b, path)
      ensures a == b
    {
      WalkFollows(t, a, path, false, false);
      WalkFollows(t, b, path, false, false);
    }
  }

  /** mount<create>(path, obj, desc) on the root. The disk map and the
      dirent cache are untouched. It fails exactly when the mount point is
      occupied or, creation being off, its parent is missing, and a failure
      leaves the state as it was; on success get<T>(path) with T the mounted
      type returns the object. */
  function Mount(v: Vfs, path: seq<string>, obj: Obj, desc: string, tag: TypeTag, isConst: bool, create: bool): (r: Step<()>)
    requires |path| >= 2
    ensures r.state.disks == v.disks && r.state.dirents == v.dirents
    ensures r.result.Err? <==> Occupied(v.root, path) || (!create && !ParentExists(v.root, path))
    ensures r.result.Err? ==> r.result.error == MountpointInvalid && r.state == v
    ensures r.result.Ok? ==> Get(r.state, path, tag, isConst) == Ok(obj)
    ensures r.result.Ok? ==> Grows(v.root, r.state.root, false)
    ensures r.result.Ok? ==> exists t, a ::
      && Grows(v.root, t, true) && NamesPath(t, a, Parent(path))
      && r.state.root == ReplaceAt(t, a, Insert(At(t, a), Last(path), obj, desc, tag, isConst))
    ensures Valid(v) ==> Valid(r.state)
  {
    var m := MountLeaf(v.root, path, obj, desc, tag, isConst, create);
    var v' := v.(root := m.tree);
    if m.status.Ok? then
      MountedLeafFound(v', path, Leaf(obj, Last(path), desc, tag, isConst));
      Step(v', m.status)
    else
      Step(v', m.status)
  }

  /** A node carrying the path's names is what get<T> inspects. */
  lemma MountedLeafFound(v: Vfs, path: seq<string>, leaf: Entry)
    requires |path| > 0
    requires exists a :: NamesPath(v.root, a, path) && At(v.root, a) == leaf
    ensures forall want, wantConst :: Get(v, path, want, wantConst) == TypedObj(leaf, want, wantConst)
  {
    var a :| NamesPath(v.root, a, path) && At(v.root, a) == leaf;
  }

  /** After mounting obj as type T at P, get<U>(P) returns obj exactly when
      U is T and the request is const or the object is not; otherwise it
      fails BadCast. */
  lemma MountThenGet(v: Vfs, path: seq<string>, obj: Obj, desc: string, tag: TypeTag, isConst: bool, create: bool,
                     want: TypeTag, wantConst: bool)
    requires |path| >= 2
    requires Mount(v, path, obj, desc, tag, isConst, create).result.Ok?
    ensures var g := Get(Mount(v, path, obj, desc, tag, isConst, create).state, path, want, wantConst);
      && (g == Ok(obj) <==> want == tag && (wantConst || !isConst))
      && (g != Ok(obj) ==> g == Err(BadCast))
  {
    var m := MountLeaf(v.root, path, obj, desc, tag, isConst, create);
    MountedLeafFound(v.(root := m.tree), path, Leaf(obj, Last(path), desc, tag, isConst));
  }

  /** A lookup that already succeeded keeps its result across any later
      mount: the tree only grows. */
  lemma LookupSurvivesGrowth(v: Vfs, v': Vfs, path: seq<string>, want: TypeTag, wantConst: bool)
    requires |path| > 0 && Grows(v.root, v'.root, false)
    requires Get(v, path, want, wantConst) != Err(NotFound)
    ensures Get(v', path, want, wantConst) == Get(v, path, want, wantConst)
  {
    var a :| NamesPath(v.root, a, path);
    GrowsKeepsNamesPath(v.root, v'.root, a, path);
  }

  /** What stat / stat_sync hand to the dirent: the object and the part of
      the path the tree did not consume. */
  datatype StatCall = StatCall(dirent: Obj, rest: seq<string>)

  /** stat(path) and stat_sync(path) up to the hand-off: a partial walk,
      then typed retrieval of a mutable Dirent from the node reached.
      NotFound exactly when the path gets stuck before any Dirent-typed
      node; otherwise the node reached carries the consumed prefix, and the
      rest of the path, if any, starts with a name that node lacks. */
  function Stat(v: Vfs, path: seq<string>): (r: Result<StatCall>)
    requires |path| > 0
    ensures r == Err(NotFound) <==> Stuck(v.root, path, true)
    ensures r.Ok? ==> exists a ::
      && |a| + |r.value.rest| == |path|
      && NamesPath(v.root, a, path[..|a|])
      && r.value.rest == path[|a|..]
      && TypedObj(At(v.root, a), DirentTag, false) == Ok(r.value.dirent)
      && (r.value.rest != [] ==> !HasChild(At(v.root, a), r.value.rest[0]))
    ensures r.Err? && r.error != NotFound ==> exists a ::
      && |a| <= |path|
      && NamesPath(v.root, a, path[..|a|])
      && (|a| < |path| ==> !HasChild(At(v.root, a), path[|a|]))
      && TypedObj(At(v.root, a), DirentTag, false) == Err(r.error)
  {
    WalkNoneIffStuck(v.root, path, true);
    match Walk(v.root, path, false, true)
    case None => Err(NotFound)
    case Some(w) =>
      match TypedObj(At(w.tree, w.addr), DirentTag, false)
      case Err(e) =>
        StatSplit(w.tree, w.addr, path, w.rest);
        Err(e)
      case Ok(o) =>
        StatSplit(w.tree, w.addr, path, w.rest);
        Ok(StatCall(o, w.rest))
  }

  /** stat reaches the end of the longest resolving prefix of the path when
      that node ends the path or is Dirent-typed: a mutable Dirent there
      receives the unconsumed suffix, anything else raises typed
      retrieval's error. */
  lemma StatFindsDirent(v: Vfs, path: seq<string>, a: seq<nat>)
    requires |path| > 0 && ResolvedPrefix(v.root, path, a)
    requires |a| < |path| ==> At(v.root, a).tag == DirentTag
    ensures var got := TypedObj(At(v.root, a), DirentTag, false);
      && (got.Ok? ==> Stat(v, path) == Ok(StatCall(got.value, path[|a|..])))
      && (got.Err? ==> Stat(v, path) == Err(got.error))
  {
    PartialWalkStopsAt(v.root, path, a);
  }

  /** The names along an address followed by the unconsumed tokens split the path. */
  lemma StatSplit(t: Entry, a: seq<nat>, path: seq<string>, rest: seq<string>)
    requires ValidAddr(t, a) && PathNames(t, a) + rest == path
    ensures |a| + |rest| == |path| && PathNames(t, a) == path[..|a|] && rest == path[|a|..]
  {
    PathNamesLength(t, a);
  }

  /** The disk map after insert_disk, and the handle it returns. */
  datatype Registered = Registered(state: Vfs, handle: DiskHandle)

  /** insert_disk(blk): emplace a freshly made handle under the device
      name; an existing entry wins and is returned. */
  function InsertDisk(v: Vfs, device: string, made: DiskHandle): (r: Registered)
    ensures r.state.root == v.root && r.state.dirents == v.dirents
    ensures device in r.state.disks && r.state.disks[device] == r.handle
    ensures device in v.disks ==> r.state.disks == v.disks
    ensures device !in v.disks ==> r.state.disks == v.disks[device := made]
  {
    if device in v.disks then Registered(v, v.disks[device])
    else Registered(v.(disks := v.disks[device := made]), made)
  }

  /** A repeated insert_disk returns the handle already registered and
      changes nothing, whatever handle it made. */
  lemma InsertDiskFirstWins(v: Vfs, device: string, made1: DiskHandle, made2: DiskHandle)
    ensures var r1 := InsertDisk(v, device, made1);
      InsertDisk(r1.state, device, made2) == r1
    ensures device !in v.disks ==> InsertDisk(v, device, made1).handle == made1
    ensures device in v.disks ==> InsertDisk(v, device, made1).handle == v.disks[device]
  {
  }

  /** mount(path, Block_device&): register the device's disk, then mount
      the shared handle (a mutable Disk_ptr), creating the path. Since the
      path is created, the mount fails only on an occupied mount point; the
      disk stays registered either way. */
  function MountDevice(v: Vfs, path: seq<string>, device: string, made: DiskHandle, desc: string): (r: Step<()>)
    requires |path| >= 2
    ensures r.result.Err? <==> Occupied(v.root, path)
    ensures r.state.disks == InsertDisk(v, device, made).state.disks && r.state.dirents == v.dirents
    ensures device in r.state.disks
    ensures device in v.disks ==> r.state.disks == v.disks
    ensures r.result.Ok? ==> Get(r.state, path, DiskPtrTag, false) == Ok(DiskObj(r.state.disks[device]))
    ensures r.result.Ok? ==> exists t, a ::
      && Grows(v.root, t, true) && NamesPath(t, a, Parent(path))
      && r.state.root == ReplaceAt(t, a, Insert(At(t, a), Last(path), DiskObj(r.state.disks[device]), desc, DiskPtrTag, false))
    ensures r.result.Err? ==> r.result.error == MountpointInvalid && r.state.root == v.root
    ensures Valid(v) ==> Valid(r.state)
  {
    var reg := InsertDisk(v, device, made);
    Mount(reg.state, path, DiskObj(reg.handle), desc, DiskPtrTag, false, true)
  }

  /** Mounting the same block device at two paths registers one handle,
      and when both mounts succeed that handle is mounted at both. */
  lemma SameDeviceSameHandle(v: Vfs, p1: seq<string>, p2: seq<string>, device: string,
                             made1: DiskHandle, made2: DiskHandle, desc1: string, desc2: string)
    requires |p1| >= 2 && |p2| >= 2
    ensures var r1 := MountDevice(v, p1, device, made1, desc1);
      var r2 := MountDevice(r1.state, p2, device, made2, desc2);
      var h := if device in v.disks then v.disks[device] else made1;
      && device in r2.state.disks && r2.state.disks[device] == h
      && (r1.result.Ok? && r2.result.Ok? ==>
            && Get(r2.state, p1, DiskPtrTag, false) == Ok(DiskObj(h))
            && Get(r2.state, p2, DiskPtrTag, false) == Ok(DiskObj(h)))
  {
    var r1 := MountDevice(v, p1, device, made1, desc1);
    var reg := InsertDisk(r1.state, device, made2);
    var r2 := Mount(reg.state, p2, DiskObj(reg.handle), desc2, DiskPtrTag, false, true);
    if r1.result.Ok? && r2.result.Ok? {
      LookupSurvivesGrowth(r1.state, r2.state, p1, DiskPtrTag, false);
    }
  }
}

=== FILE: tree.dfy ===
/** A node of the VFS tree (VFS_entry): a name, a description, an optional
    borrowed object with its type tag and const flag, and owned children.
    Positions in a tree are index paths: the i-th child of the root, then
    the j-th child of that, and so on. */
module Tree {
  import opened Errors
  import opened Objects

  datatype Entry = Entry(
    name: string,
    desc: string,
    tag: TypeTag,
    isConst: bool,
    obj: Option<Obj>,
    children: seq<Entry>)

  /** A node built from a name and description only: no object, the null
      type tag, and the const flag at its default value, true. */
  function Directory(name: string, desc: string): Entry {
    Entry(name, desc, NullTag, true, None, [])
  }

  /** A node built around a borrowed object of the given type. */
  function Leaf(obj: Obj, name: string, desc: string, tag: TypeTag, isConst: bool): Entry {
    Entry(name, desc, tag, isConst, Some(obj), [])
  }

  function ChildCount(e: Entry): nat {
    |e.children|
  }

  predicate HasChild(e: Entry, name: string) {
    exists j :: 0 <= j < |e.children| && e.children[j].name == name
  }

  /** Index i holds the first of the children carrying its name. */
  predicate IsFirst(cs: seq<Entry>, i: nat) {
    i < |cs| && forall j :: 0 <= j < i ==> cs[j].name != cs[i].name
  }

  /** Checked typed retrieval of the borrowed object: a node without an
      object fails NotLeaf; a different type tag, or a const object asked
      for as mutable, fails BadCast. Asking for const is always allowed. */
  function TypedObj(e: Entry, want: TypeTag, wantConst: bool): (r: Result<Obj>)
    ensures r == Err(NotLeaf) <==> e.obj.None?
    ensures r == Err(BadCast) <==> e.obj.Some? && (e.tag != want || (e.isConst && !wantConst))
    ensures r.Ok? <==> e.obj.Some? && e.tag == want && (wantConst || !e.isConst)
    ensures r.Ok? ==> r.value == e.obj.value
  {
    if e.obj.None? then Err(NotLeaf)
    else if e.tag != want then Err(BadCast)
    else if e.isConst && !wantConst then Err(BadCast)
    else Ok(e.obj.value)
  }

  /** Index of the first child named `name`, if any. */
  function GetChild(e: Entry, name: string): (r: Option<nat>)
    ensures r.Some? ==> IsFirst(e.children, r.value) && e.children[r.value].name == name
    ensures r.None? <==> !HasChild(e, name)
  {
    FindFrom(e.children, name, 0)
  }

  /** Linear search from position k, the children before k being known not to match. */
  function FindFrom(cs: seq<Entry>, name: string, k: nat): (r: Option<nat>)
    requires k <= |cs|
    requires forall j :: 0 <= j < k ==> cs[j].name != name
    ensures r.Some? ==> k <= r.value < |cs| && cs[r.value].name == name
    ensures r.Some? ==> forall j :: 0 <= j < r.value ==> cs[j].name != name
    ensures r.None? ==> forall j :: 0 <= j < |cs| ==> cs[j].name != name
    decreases |cs| - k
  {
    if k == |cs| then None
    else if cs[k].name == name then Some(k)
    else FindFrom(cs, name, k + 1)
  }

  /** Appends a child at the end of the children list; the node's own
      fields and its existing children are kept. */
  function Append(e: Entry, c: Entry): (r: Entry)
    ensures ChildCount(r) == ChildCount(e) + 1
    ensures r.children[..ChildCount(e)] == e.children && r.children[ChildCount(e)] == c
    ensures r.(children := e.children) == e
  {
    e.(children := e.children + [c])
  }

  /** insert_parent: the new last child is an empty, object-less
      "Directory" node named token; nothing else changes. */
  function InsertParent(e: Entry, token: string): (r: Entry)
    ensures ChildCount(r) == ChildCount(e) + 1
    ensures r.children[..ChildCount(e)] == e.children && r.(children := e.children) == e
    ensures var d := r.children[ChildCount(e)];
      d.name == token && d.desc == "Directory" && d.obj.None? && d.tag == NullTag && d.children == []
  {
    Append(e, Directory(token, "Directory"))
  }

  /** Replacing the directory insert_parent appended is appending the replacement. */
  lemma ReplaceAppended(t: Entry, token: string, sub: Entry)
    ensures var parent := InsertParent(t, token);
      parent.(children := parent.children[|t.children| := sub]) == t.(children := t.children + [sub])
  {
    var parent := InsertParent(t, token);
    assert parent.children[|t.children| := sub] == t.children + [sub];
  }

  /** insert: the new last child is a childless leaf named token that
      borrows obj with the given type tag and const flag; nothing else changes. */
  function Insert(e: Entry, token: string, obj: Obj, desc: string, tag: TypeTag, isConst: bool): (r: Entry)
    ensures ChildCount(r) == ChildCount(e) + 1
    ensures r.children[..ChildCount(e)] == e.children && r.(children := e.children) == e
    ensures var l := r.children[ChildCount(e)];
      l.name == token && l.desc == desc && l.obj == Some(obj) && l.tag == tag && l.isConst == isConst && l.children == []
  {
    Append(e, Leaf(obj, token, desc, tag, isConst))
  }

  /** Appending leaves every existing name lookup alone, and makes the new
      child visible under its name only when no older child already holds it. */
  lemma AppendLookup(e: Entry, c: Entry, name: string)
    ensures HasChild(e, name) ==> GetChild(Append(e, c), name) == GetChild(e, name)
    ensures !HasChild(e, name) && c.name == name ==> GetChild(Append(e, c), name) == Some(ChildCount(e))
    ensures !HasChild(e, name) && c.name != name ==> GetChild(Append(e, c), name) == None
  {
    var e' := Append(e, c);
    assert forall j :: 0 <= j < |e.children| ==> e'.children[j] == e.children[j];
    assert e'.children[|e.children|] == c;
  }

  // ---------------------------------------------------------------------
  // Addresses: index paths into a tree

  predicate ValidAddr(t: Entry, a: seq<nat>)
    decreases |a|
  {
    a == [] || (a[0] < |t.children| && ValidAddr(t.children[a[0]], a[1..]))
  }

  /** The node at address a. */
  function At(t: Entry, a: seq<nat>): Entry
    requires ValidAddr(t, a)
    decreases |a|
  {
    if a == [] then t else At(t.children[a[0]], a[1..])
  }

  /** The names of the nodes passed on the way to address a, root excluded. */
  function PathNames(t: Entry, a: seq<nat>): seq<string>
    requires ValidAddr(t, a)
    decreases |a|
  {
    if a == [] then [] else [t.children[a[0]].name] + PathNames(t.children[a[0]], a[1..])
  }

  /** Every step of address a picks the first child carrying its name. */
  ghost predicate FirstMatches(t: Entry, a: seq<nat>)
    requires ValidAddr(t, a)
    decreases |a|
  {
    a == [] || (IsFirst(t.children, a[0]) && FirstMatches(t.children[a[0]], a[1..]))
  }

  /** Address a is where a first-match lookup of `path` lands. */
  ghost predicate NamesPath(t: Entry, a: seq<nat>, path: seq<string>) {
    ValidAddr(t, a) && FirstMatches(t, a) && PathNames(t, a) == path
  }

  /** The tree with the node at address a replaced by n. */
  function ReplaceAt(t: Entry, a: seq<nat>, n: Entry): Entry
    requires ValidAddr(t, a)
    decreases |a|
  {
    if a == [] then n
    else t.(children := t.children[a[0] := ReplaceAt(t.children[a[0]], a[1..], n)])
  }

  /** Unfolding an address one step from the top. */
  lemma AddrCons(t: Entry, i: nat, a: seq<nat>)
    requires i < |t.children|
    ensures ValidAddr(t, [i] + a) <==> ValidAddr(t.children[i], a)
    ensures ValidAddr(t, [i] + a) ==>
      && At(t, [i] + a) == At(t.children[i], a)
      && PathNames(t, [i] + a) == [t.children[i].name] + PathNames(t.children[i], a)
      && (FirstMatches(t, [i] + a) <==> IsFirst(t.children, i) && FirstMatches(t.children[i], a))
  {
    assert ([i] + a)[0] == i;
    assert ([i] + a)[1..] == a;
  }

  /** A first-match step to child i, named p[0], followed by an address
      that carries the rest of p from there, carries p. */
  lemma NamesPathCons(t: Entry, i: nat, b: seq<nat>, p: seq<string>)
    requires |p| > 0 && IsFirst(t.children, i) && t.children[i].name == p[0]
    requires NamesPath(t.children[i], b, p[1..])
    ensures NamesPath(t, [i] + b, p)
    ensures At(t, [i] + b) == At(t.children[i], b)
  {
    AddrCons(t, i, b);
    assert p == [p[0]] + p[1..];
  }

  /** Extending an address by one step at the bottom. */
  lemma {:induction false} AddrSnoc(t: Entry, a: seq<nat>, k: nat)
    requires ValidAddr(t, a)
    ensures ValidAddr(t, a + [k]) <==> k < |At(t, a).children|
    ensures ValidAddr(t, a + [k]) ==>
      && At(t, a + [k]) == At(t, a).children[k]
      && PathNames(t, a + [k]) == PathNames(t, a) + [At(t, a).children[k].name]
      && (FirstMatches(t, a + [k]) <==> FirstMatches(t, a) && IsFirst(At(t, a).children, k))
    decreases |a|
  {
    if a == [] {
      assert a + [k] == [k] + [];
      if k < |t.children| {
        AddrCons(t, k, []);
      }
    } else {
      var i := a[0];
      assert a + [k] == [i] + (a[1..] + [k]);
      AddrSnoc(t.children[i], a[1..], k);
      AddrCons(t, i, a[1..] + [k]);
    }
  }

  /** Replacing a node by one of the same name keeps every address that
      leads to it valid, leaves the names along it and the first-match
      choices along it alone, and puts the new node there. */
  lemma {:induction false} ReplaceAtAddr(t: Entry, a: seq<nat>, n: Entry)
    requires ValidAddr(t, a)
    requires n.name == At(t, a).name
    ensures ValidAddr(ReplaceAt(t, a, n), a)
    ensures At(ReplaceAt(t, a, n), a) == n
    ensures PathNames(ReplaceAt(t, a, n), a) == PathNames(t, a)
    ensures FirstMatches(ReplaceAt(t, a, n), a) <==> FirstMatches(t, a)
    decreases |a|
  {
    if a != [] {
      var i := a[0];
      var c' := ReplaceAt(t.children[i], a[1..], n);
      ReplaceAtAddr(t.children[i], a[1..], n);
      var t' := ReplaceAt(t, a, n);
      assert t'.children == t.children[i := c'];
      assert a == [i] + a[1..];
      AddrCons(t, i, a[1..]);
      AddrCons(t', i, a[1..]);
      assert IsFirst(t'.children, i) <==> IsFirst(t.children, i) by {
        assert forall j :: 0 <= j < i ==> t'.children[j] == t.children[j];
      }
    }
  }

  // ---------------------------------------------------------------------
  // Structural predicates

  /** Same name, description, type tag, const flag and object. */
  ghost predicate SameNode(o: Entry, n: Entry) {
    o.name == n.name && o.desc == n.desc && o.tag == n.tag && o.isConst == n.isConst && o.obj == n.obj
  }

  /** The shape insert_parent creates. */
  ghost predicate IsDirectoryNode(e: Entry) {
    e.desc == "Directory" && e.tag == NullTag && e.isConst && e.obj.None?
  }

  /** A subtree made of insert_parent nodes only. */
  ghost predicate AllDirs(e: Entry)
    decreases e
  {
    IsDirectoryNode(e) && forall i :: 0 <= i < |e.children| ==> AllDirs(e.children[i])
  }

  /** n is o with nodes appended: every node of o keeps its fields, its
      children stay a prefix of the new children list, and when onlyDirs
      holds everything appended is built of insert_parent nodes. */
  ghost predicate Grows(o: Entry, n: Entry, onlyDirs: bool)
    decreases o
  {
    && SameNode(o, n)
    && |o.children| <= |n.children|
    && (forall i :: 0 <= i < |o.children| ==> Grows(o.children[i], n.children[i], onlyDirs))
    && (onlyDirs ==> forall i :: |o.children| <= i < |n.children| ==> AllDirs(n.children[i]))
  }

  ghost predicate UniqueNames(cs: seq<Entry>) {
    forall i, j :: 0 <= i < j < |cs| ==> cs[i].name != cs[j].name
  }

  /** No two siblings anywhere in the tree share a name. */
  ghost predicate WellNamed(e: Entry)
    decreases e
  {
    UniqueNames(e.children) && forall i :: 0 <= i < |e.children| ==> WellNamed(e.children[i])
  }

  /** Number of nodes in a tree. */
  function Size(e: Entry): nat
    decreases e
  {
    1 + SizeOf(e.children)
  }

  function SizeOf(cs: seq<Entry>): nat
    decreases cs
  {
    if cs == [] then 0 else SizeOf(cs[..|cs| - 1]) + Size(cs[|cs| - 1])
  }

  lemma {:induction false} SizeOfUpdate(cs: seq<Entry>, i: nat, c: Entry)
    requires i < |cs|
    ensures SizeOf(cs[i := c]) + Size(cs[i]) == SizeOf(cs) + Size(c)
    decreases |cs|
  {
    var n := |cs| - 1;
    assert cs[i := c][..n] == if i == n then cs[..n] else cs[..n][i := c];
    if i < n {
      SizeOfUpdate(cs[..n], i, c);
    }
  }

  lemma SizeOfAppend(cs: seq<Entry>, c: Entry)
    ensures SizeOf(cs + [c]) == SizeOf(cs) + Size(c)
  {
    assert (cs + [c])[..|cs|] == cs;
  }

  /** Replacing the node at an address changes the size by the difference. */
  lemma {:induction false} ReplaceAtSize(t: Entry, a: seq<nat>, n: Entry)
    requires ValidAddr(t, a)
    ensures Size(ReplaceAt(t, a, n)) + Size(At(t, a)) == Size(t) + Size(n)
    decreases |a|
  {
    if a != [] {
      ReplaceAtSize(t.children[a[0]], a[1..], n);
      SizeOfUpdate(t.children, a[0], ReplaceAt(t.children[a[0]], a[1..], n));
    }
  }

  lemma {:induction false} GrowsRefl(e: Entry, onlyDirs: bool)
    ensures Grows(e, e, onlyDirs)
    decreases e
  {
    forall i | 0 <= i < |e.children| {
      GrowsRefl(e.children[i], onlyDirs);
    }
  }

  lemma {:induction false} GrowsWeaken(o: Entry, n: Entry)
    requires Grows(o, n, true)
    ensures Grows(o, n, false)
    decreases o
  {
    forall i | 0 <= i < |o.children| {
      GrowsWeaken(o.children[i], n.children[i]);
    }
  }

  lemma {:induction false} GrowsTrans(a: Entry, b: Entry, c: Entry)
    requires Grows(a, b, false) && Grows(b, c, false)
    ensures Grows(a, c, false)
    decreases a
  {
    forall i | 0 <= i < |a.children| {
      GrowsTrans(a.children[i], b.children[i], c.children[i]);
    }
  }

  /** What grows out of an insert_parent subtree with only insert_parent
      nodes added is still an insert_parent subtree. */
  lemma {:induction false} GrowsKeepsAllDirs(o: Entry, n: Entry)
    requires AllDirs(o) && Grows(o, n, true)
    ensures AllDirs(n)
    decreases o
  {
    forall i | 0 <= i < |n.children|
      ensures AllDirs(n.children[i])
    {
      if i < |o.children| {
        GrowsKeepsAllDirs(o.children[i], n.children[i]);
      }
    }
  }

  /** Growing the node at an address grows the whole tree. */
  lemma {:induction false} ReplaceAtGrows(t: Entry, a: seq<nat>, n: Entry)
    requires ValidAddr(t, a)
    requires Grows(At(t, a), n, false)
    ensures Grows(t, ReplaceAt(t, a, n), false)
    decreases |a|
  {
    if a != [] {
      var i := a[0];
      var t' := ReplaceAt(t, a, n);
      ReplaceAtGrows(t.children[i], a[1..], n);
      forall j | 0 <= j < |t.children|
        ensures Grows(t.children[j], t'.children[j], false)
      {
        if j != i {
          GrowsRefl(t.children[j], false);
        }
      }
    }
  }

  /** Replacing a node by a same-named, well-named node keeps the whole
      tree well-named. */
  lemma {:induction false} ReplaceAtWellNamed(t: Entry, a: seq<nat>, n: Entry)
    requires ValidAddr(t, a)
    requires n.name == At(t, a).name
    requires WellNamed(t) && WellNamed(n)
    ensures WellNamed(ReplaceAt(t, a, n))
    decreases |a|
  {
    if a != [] {
      var i := a[0];
      var c' := ReplaceAt(t.children[i], a[1..], n);
      ReplaceAtWellNamed(t.children[i], a[1..], n);
      ReplaceAtAddr(t.children[i], a[1..], n);
      assert c'.name == t.children[i].name by {
        if a[1..] != [] {
          ReplaceAtName(t.children[i], a[1..], n);
        }
      }
      var t' := ReplaceAt(t, a, n);
      assert t'.children == t.children[i := c'];
    }
  }

  /** Replacing a node strictly below the top leaves the top's own fields alone. */
  lemma ReplaceAtName(t: Entry, a: seq<nat>, n: Entry)
    requires ValidAddr(t, a) && a != []
    ensures SameNode(t, ReplaceAt(t, a, n))
  {
  }

  /** Appending a child whose name is new keeps a well-named node well-named. */
  lemma AppendWellNamed(e: Entry, c: Entry)
    requires WellNamed(e) && WellNamed(c)
    requires !HasChild(e, c.name)
    ensures WellNamed(Append(e, c))
  {
    var cs := Append(e, c).children;
    assert forall j :: 0 <= j < |e.children| ==> cs[j] == e.children[j];
    assert cs[|e.children|] == c;
  }

  lemma UpdateKeepsUnique(cs: seq<Entry>, i: nat, x: Entry)
    requires i < |cs| && UniqueNames(cs) && x.name == cs[i].name
    ensures UniqueNames(cs[i := x])
  {
  }

  lemma AppendKeepsUnique(cs: seq<Entry>, x: Entry)
    requires UniqueNames(cs)
    requires forall j :: 0 <= j < |cs| ==> cs[j].name != x.name
    ensures UniqueNames(cs + [x])
  {
  }

  /** A node with unique child names whose children are all well-named is
      well-named. */
  lemma ChildrenWellNamed(e: Entry)
    requires UniqueNames(e.children)
    requires forall j :: 0 <= j < |e.children| ==> WellNamed(e.children[j])
    ensures WellNamed(e)
  {
  }

  /** A prefix of a valid address is valid. */
  lemma {:induction false} ValidPrefix(t: Entry, a: seq<nat>, k: nat)
    requires ValidAddr(t, a) && k <= |a|
    ensures ValidAddr(t, a[..k])
    decreases k
  {
    if k > 0 {
      ValidPrefix(t.children[a[0]], a[1..], k - 1);
      assert a[..k] == [a[0]] + a[1..][..k - 1];
      AddrCons(t, a[0], a[1..][..k - 1]);
    }
  }

  /** Every subtree of a well-named tree is well-named. */
  lemma {:induction false} WellNamedAt(t: Entry, a: seq<nat>)
    requires ValidAddr(t, a) && WellNamed(t)
    ensures WellNamed(At(t, a))
    decreases |a|
  {
    if a != [] {
      WellNamedAt(t.children[a[0]], a[1..]);
    }
  }

  /** Appending a child grows a node without changing it otherwise. */
  lemma AppendGrows(e: Entry, c: Entry)
    ensures Grows(e, Append(e, c), false)
  {
    forall i | 0 <= i < |e.children| {
      GrowsRefl(e.children[i], false);
    }
  }

  /** An address passes one name per step. */
  lemma {:induction false} PathNamesLength(t: Entry, a: seq<nat>)
    requires ValidAddr(t, a)
    ensures |PathNames(t, a)| == |a|
    decreases |a|
  {
    if a != [] {
      PathNamesLength(t.children[a[0]], a[1..]);
    }
  }

  /** Growing a tree keeps every first-match lookup where it was, and the
      node found there keeps its own fields. */
  lemma {:induction false} GrowsKeepsNamesPath(o: Entry, n: Entry, a: seq<nat>, path: seq<string>)
    requires Grows(o, n, false) && NamesPath(o, a, path)
    ensures NamesPath(n, a, path) && SameNode(At(o, a), At(n, a))
    decreases |a|
  {
    if a != [] {
      var i := a[0];
      assert a == [i] + a[1..];
      AddrCons(o, i, a[1..]);
      AddrCons(n, i, a[1..]);
      GrowsKeepsNamesPath(o.children[i], n.children[i], a[1..], PathNames(o.children[i], a[1..]));
      assert IsFirst(n.children, i) by {
        forall j | 0 <= j < i
          ensures n.children[j].name != n.children[i].name
        {
          assert SameNode(o.children[j], n.children[j]);
        }
      }
    }
  }
}

=== FILE: type_name.dfy ===
/** The truncation step of type_name(type, max_chars): a name longer than
    max_chars is cut and marked with "...". max_chars is a size_t, so the
    subtraction max_chars - 3 wraps modulo 2^64. */
module TypeNames {
  /** 2^64: size_t arithmetic is modulo this. */
  const SizeMax: nat := 0x1_0000_0000_0000_0000

  /** size_t subtraction. */
  function SizeSub(a: nat, b: nat): (r: nat)
    requires a < SizeMax && b < SizeMax
    ensures r < SizeMax
    ensures b <= a ==> r == a - b
    ensures a < b ==> r == SizeMax - (b - a)
  {
    (a - b) % SizeMax
  }

  /** std::string::substr(0, count): a count past the end keeps the whole string. */
  function Prefix(s: string, count: nat): (r: string)
    ensures |r| == if count < |s| then count else |s|
    ensures r <= s
  {
    if count < |s| then s[..count] else s
  }

  /** The truncation as written: for max_chars of 1 or 2 the count wraps
      to nearly 2^64, nothing is cut and the marker is still appended, so
      the result is longer than max_chars. */
  function TruncateAsWritten(s: string, maxChars: nat): (r: string)
    requires maxChars < SizeMax
    ensures maxChars == 0 || |s| <= maxChars ==> r == s
    ensures maxChars >= 3 && |s| > maxChars ==> |r| == maxChars
    ensures 0 < maxChars < 3 && |s| > maxChars ==> |r| > maxChars
    ensures 0 < maxChars < 3 && maxChars < |s| <= SizeMax - 2 ==> r == s + "..."
  {
    if maxChars != 0 && |s| > maxChars then Prefix(s, SizeSub(maxChars, 3)) + "..." else s
  }

  /** A three-letter name with max_chars == 1 comes back as six characters. */
  lemma TruncateAsWrittenOverflows()
    ensures TruncateAsWritten("int", 1) == "int..."
    ensures |TruncateAsWritten("int", 1)| > 1
  {
  }

  /** The truncation as evidently intended: a result never longer than
      max_chars (when max_chars is set); below three characters there is
      no room for the marker, so the name is only cut. */
  function Truncate(s: string, maxChars: nat): (r: string)
    ensures maxChars == 0 || |s| <= maxChars ==> r == s
    ensures maxChars != 0 && |s| > maxChars ==> |r| == maxChars
    ensures maxChars >= 3 && |s| > maxChars ==> r[..maxChars - 3] == s[..maxChars - 3] && r[maxChars - 3..] == "..."
    ensures maxChars < 3 ==> r <= s
  {
    if maxChars == 0 || |s| <= maxChars then s
    else if maxChars < 3 then s[..maxChars]
    else s[..maxChars - 3] + "..."
  }

  /** The corrected truncation agrees with the written one everywhere the
      latter does not wrap, and differs from it exactly where it does. */
  lemma TruncateAgrees(s: string, maxChars: nat)
    requires maxChars < SizeMax
    ensures Truncate(s, maxChars) == TruncateAsWritten(s, maxChars)
        <==> maxChars == 0 || maxChars >= 3 || |s| <= maxChars
  {
    if maxChars >= 3 && |s| > maxChars {
      assert Prefix(s, SizeSub(maxChars, 3)) == s[..maxChars - 3];
    }
    if 0 < maxChars < 3 && |s| > maxChars {
      assert |Truncate(s, maxChars)| != |TruncateAsWritten(s, maxChars)|;
    }
  }
}

=== FILE: walk.dfy ===
/** VFS_entry::walk: greedy left-to-right descent along a path, optionally
    creating missing nodes, optionally stopping at a Dirent-typed node. */
module Walking {
  import opened Errors
  import opened Objects
  import opened Tree

  /** What a successful walk hands back: the (possibly grown) tree, the
      address of the node reached, and the tokens left unconsumed. */
  datatype Walked = Walked(tree: Entry, addr: seq<nat>, rest: seq<string>)

  /** The soundness of a walk result w from `node` along `path`:
      - the tree only grew, and only by insert_parent nodes;
      - w.addr leads, by first-match steps, to a node whose path of names is
        exactly the consumed tokens, and w.rest is the unconsumed suffix;
      - tokens are left over only in a partial walk halted at a Dirent-typed
        node that has no child named by the next token;
      - a non-creating walk leaves the tree as it was. */
  ghost predicate WalkPost(node: Entry, path: seq<string>, create: bool, partial: bool, w: Walked) {
    && Grows(node, w.tree, true)
    && ValidAddr(w.tree, w.addr)
    && FirstMatches(w.tree, w.addr)
    && PathNames(w.tree, w.addr) + w.rest == path
    && (w.rest != [] ==>
          partial && At(w.tree, w.addr).tag == DirentTag && !HasChild(At(w.tree, w.addr), w.rest[0]))
    && (!create ==> w.tree == node)
  }

  /** The walk loop, one token per call: an empty path ends the walk at the
      current node. A missing child halts a partial walk at a Dirent-typed
      node, fails a non-creating walk, and otherwise is created as a fresh
      "Directory" node at the end of the children list. */
  function WalkFrom(node: Entry, path: seq<string>, create: bool, partial: bool): (r: Option<Walked>)
    ensures r.Some? ==> WalkPost(node, path, create, partial, r.value)
    ensures create ==> r.Some?
    ensures create && !partial ==> r.Some? && r.value.rest == []
    decreases |path|
  {
    if |path| == 0 then
      StopSound(node, path, create, partial);
      Some(Walked(node, [], []))
    else
      var found := GetChild(node, path[0]);
      if found.None? && partial && node.tag == DirentTag then
        StopSound(node, path, create, partial);
        Some(Walked(node, [], path))
      else if found.None? && !create then
        None
      else
        var parent := if found.Some? then node else InsertParent(node, path[0]);
        var i := if found.Some? then found.value else |node.children|;
        match WalkFrom(parent.children[i], path[1..], create, partial)
        case None => None
        case Some(w) =>
          StepSound(node, path, create, partial, parent, i, w);
          Some(Walked(parent.(children := parent.children[i := w.tree]), [i] + w.addr, w.rest))
  }

  /** walk<create>(path, partial) on a non-empty path. */
  function Walk(root: Entry, path: seq<string>, create: bool, partial: bool): (r: Option<Walked>)
    requires |path| > 0
    ensures r.Some? ==> WalkPost(root, path, create, partial, r.value)
    ensures create ==> r.Some?
    ensures create && !partial ==> r.Some? && r.value.rest == []
  {
    WalkFrom(root, path, create, partial)
  }

  /** Stopping at the current node with the whole path left over is sound
      when the path is empty or a partial walk halts at a Dirent-typed node
      that lacks the first token. */
  lemma StopSound(node: Entry, path: seq<string>, create: bool, partial: bool)
    requires path == [] || (partial && node.tag == DirentTag && !HasChild(node, path[0]))
    ensures WalkPost(node, path, create, partial, Walked(node, [], path))
  {
    GrowsRefl(node, true);
  }

  /** One descent step keeps a walk result sound. */
  lemma StepSound(node: Entry, path: seq<string>, create: bool, partial: bool, parent: Entry, i: nat, w: Walked)
    requires |path| > 0
    requires || (GetChild(node, path[0]) == Some(i) && parent == node)
             || (!HasChild(node, path[0]) && create && parent == InsertParent(node, path[0]) && i == |node.children|)
    requires i < |parent.children|
    requires WalkPost(parent.children[i], path[1..], create, partial, w)
    ensures WalkPost(node, path, create, partial,
                     Walked(parent.(children := parent.children[i := w.tree]), [i] + w.addr, w.rest))
  {
    var t' := parent.(children := parent.children[i := w.tree]);
    assert t'.children[i] == w.tree;
    AddrCons(t', i, w.addr);
    assert forall j :: 0 <= j < |parent.children| && j != i ==> t'.children[j] == parent.children[j];
    assert IsFirst(t'.children, i) by {
      assert forall j :: 0 <= j < i ==> t'.children[j] == node.children[j];
    }
    assert path == [path[0]] + path[1..];
    forall j | 0 <= j < |node.children| && j != i {
      GrowsRefl(node.children[j], true);
    }
    if GetChild(node, path[0]).None? {
      GrowsKeepsAllDirs(Directory(path[0], "Directory"), w.tree);
    }
  }

  /** Number of leading tokens of `path` that already name nodes, following
      first matches from t. */
  function Depth(t: Entry, path: seq<string>): (k: nat)
    ensures k <= |path|
    decreases |path|
  {
    if |path| == 0 then 0
    else match GetChild(t, path[0])
      case None => 0
      case Some(i) => 1 + Depth(t.children[i], path[1..])
  }

  /** Address a resolves the first |a| tokens of path, and the node there
      lacks the next token: |a| is the longest prefix that resolves. */
  ghost predicate ResolvedPrefix(t: Entry, path: seq<string>, a: seq<nat>) {
    && |a| <= |path|
    && NamesPath(t, a, path[..|a|])
    && (|a| < |path| ==> !HasChild(At(t, a), path[|a|]))
  }

  /** Depth is the length of the longest prefix of the path that resolves. */
  lemma {:induction false} DepthResolves(t: Entry, path: seq<string>)
    ensures exists a :: |a| == Depth(t, path) && ResolvedPrefix(t, path, a)
    decreases |path|
  {
    if |path| == 0 {
      assert ResolvedPrefix(t, path, []);
    } else {
      match GetChild(t, path[0])
      case None =>
        assert ResolvedPrefix(t, path, []);
      case Some(i) =>
        var c := t.children[i];
        DepthResolves(c, path[1..]);
        var b :| |b| == Depth(c, path[1..]) && ResolvedPrefix(c, path[1..], b);
        ResolvedPrefixStep(t, path, i, b);
    }
  }

  /** A resolved prefix below the first matching child extends by that child. */
  lemma ResolvedPrefixStep(t: Entry, path: seq<string>, i: nat, b: seq<nat>)
    requires |path| > 0 && GetChild(t, path[0]) == Some(i)
    requires ResolvedPrefix(t.children[i], path[1..], b)
    ensures ResolvedPrefix(t, path, [i] + b)
  {
    assert path[..|b| + 1][1..] == path[1..][..|b|];
    NamesPathCons(t, i, b, path[..|b| + 1]);
    if |b| + 1 < |path| {
      assert path[1..][|b|] == path[|b| + 1];
    }
  }

  /** The first step of a resolved prefix is a first match for the first
      token, and the rest of the prefix resolves below it. */
  lemma ResolvedPrefixTail(t: Entry, path: seq<string>, i: nat, b: seq<nat>)
    requires ResolvedPrefix(t, path, [i] + b)
    ensures i < |t.children| && IsFirst(t.children, i) && t.children[i].name == path[0]
    ensures ResolvedPrefix(t.children[i], path[1..], b)
  {
    var a := [i] + b;
    assert a[0] == i && a[1..] == b;
    assert i < |t.children|;
    var c := t.children[i];
    AddrCons(t, i, b);
    assert [c.name] + PathNames(c, b) == path[..|a|];
    assert path[..|a|][1..] == path[1..][..|b|];
    assert PathNames(c, b) == path[1..][..|b|];
    assert path[..|a|][0] == path[0];
    if |a| < |path| {
      assert path[|a|] == path[1..][|b|];
    }
  }

  /** A partial, non-creating walk stops at the end of the resolved prefix
      when that node ends the path or is Dirent-typed, and hands back the
      unconsumed suffix. */
  lemma {:induction false} PartialWalkStopsAt(t: Entry, path: seq<string>, a: seq<nat>)
    requires ResolvedPrefix(t, path, a)
    requires |a| < |path| ==> At(t, a).tag == DirentTag
    ensures WalkFrom(t, path, false, true) == Some(Walked(t, a, path[|a|..]))
    decreases |a|
  {
    if a == [] {
      assert path[0..] == path;
    } else {
      var i := a[0];
      var b := a[1..];
      assert a == [i] + b;
      ResolvedPrefixTail(t, path, i, b);
      FirstIsUnique(t, i, path[0]);
      AddrCons(t, i, b);
      PartialWalkStopsAt(t.children[i], path[1..], b);
      assert path[1..][|b|..] == path[|a|..];
      assert t.children[i := t.children[i]] == t.children;
    }
  }

  /** Some prefix of `path` names a node that has no child for the next
      token, and that node does not end a partial walk. */
  ghost predicate Stuck(t: Entry, path: seq<string>, partial: bool) {
    exists a :: |a| < |path| && NamesPath(t, a, path[..|a|]) && Unmatched(t, a, path, partial)
  }

  ghost predicate Unmatched(t: Entry, a: seq<nat>, path: seq<string>, partial: bool)
    requires ValidAddr(t, a) && |a| < |path|
  {
    !HasChild(At(t, a), path[|a|]) && !(partial && At(t, a).tag == DirentTag)
  }

  /** At most one first-match step picks a given name. */
  lemma FirstIsUnique(e: Entry, i: nat, name: string)
    requires IsFirst(e.children, i) && e.children[i].name == name
    ensures GetChild(e, name) == Some(i)
  {
  }

  /** A walk along a path that already names a node goes straight to it,
      whatever the flags, and creates nothing. */
  lemma {:induction false} WalkFollows(t: Entry, a: seq<nat>, path: seq<string>, create: bool, partial: bool)
    requires NamesPath(t, a, path)
    ensures WalkFrom(t, path, create, partial) == Some(Walked(t, a, []))
    decreases |a|
  {
    if a != [] {
      var i := a[0];
      assert a == [i] + a[1..];
      AddrCons(t, i, a[1..]);
      FirstIsUnique(t, i, path[0]);
      assert path[1..] == PathNames(t.children[i], a[1..]);
      WalkFollows(t.children[i], a[1..], path[1..], create, partial);
      assert t.children[i := t.children[i]] == t.children;
    }
  }

  /** A non-creating walk fails exactly when the path gets stuck. */
  lemma {:induction false} WalkNoneIffStuck(t: Entry, path: seq<string>, partial: bool)
    ensures WalkFrom(t, path, false, partial).None? <==> Stuck(t, path, partial)
    decreases |path|
  {
    if |path| > 0 {
      match GetChild(t, path[0])
      case None =>
        if partial && t.tag == DirentTag {
          NotStuckAtDirent(t, path);
        } else {
          assert NamesPath(t, [], path[..0]) && Unmatched(t, [], path, partial);
        }
      case Some(i) =>
        WalkNoneIffStuck(t.children[i], path[1..], partial);
        if Stuck(t.children[i], path[1..], partial) {
          StuckBelow(t, path, partial, i);
        }
        if Stuck(t, path, partial) {
          StuckAbove(t, path, partial, i);
        }
    }
  }

  /** A partial walk halting at a Dirent-typed node is never stuck there. */
  lemma NotStuckAtDirent(t: Entry, path: seq<string>)
    requires |path| > 0 && !HasChild(t, path[0]) && t.tag == DirentTag
    ensures !Stuck(t, path, true)
  {
    forall a | |a| < |path| && NamesPath(t, a, path[..|a|])
      ensures !Unmatched(t, a, path, true)
    {
    }
  }

  /** Getting stuck below the first matching child is getting stuck. */
  lemma StuckBelow(t: Entry, path: seq<string>, partial: bool, i: nat)
    requires |path| > 0 && GetChild(t, path[0]) == Some(i)
    requires Stuck(t.children[i], path[1..], partial)
    ensures Stuck(t, path, partial)
  {
    var c := t.children[i];
    var b :| |b| < |path[1..]| && NamesPath(c, b, path[1..][..|b|]) && Unmatched(c, b, path[1..], partial);
    var a := [i] + b;
    assert path[..|a|][1..] == path[1..][..|b|];
    NamesPathCons(t, i, b, path[..|a|]);
    assert path[|a|] == path[1..][|b|];
    assert Unmatched(t, a, path, partial);
  }

  /** Getting stuck when the first token matches happens below that match. */
  lemma StuckAbove(t: Entry, path: seq<string>, partial: bool, i: nat)
    requires |path| > 0 && GetChild(t, path[0]) == Some(i)
    requires Stuck(t, path, partial)
    ensures Stuck(t.children[i], path[1..], partial)
  {
    var c := t.children[i];
    var a :| |a| < |path| && NamesPath(t, a, path[..|a|]) && Unmatched(t, a, path, partial);
    assert HasChild(t, path[0]) by {
      assert t.children[i].name == path[0];
    }
    assert a != [];
    var b := a[1..];
    assert a == [a[0]] + b;
    AddrCons(t, a[0], b);
    assert t.children[a[0]].name == path[0] by {
      assert PathNames(t, a)[0] == path[..|a|][0];
    }
    FirstIsUnique(t, a[0], path[0]);
    assert a[0] == i;
    StuckAboveWitness(t, path, partial, i, b);
  }

  lemma StuckAboveWitness(t: Entry, path: seq<string>, partial: bool, i: nat, b: seq<nat>)
    requires |path| > 0 && i < |t.children| && |b| + 1 < |path|
    requires NamesPath(t, [i] + b, path[..|b| + 1])
    requires Unmatched(t, [i] + b, path, partial)
    ensures Stuck(t.children[i], path[1..], partial)
  {
    var c := t.children[i];
    var rest := path[1..];
    AddrCons(t, i, b);
    assert ValidAddr(c, b);
    assert FirstMatches(c, b);
    assert PathNames(c, b) == rest[..|b|] by {
      assert path[..|b| + 1] == [path[0]] + rest[..|b|];
    }
    assert NamesPath(c, b, rest[..|b|]);
    assert At(c, b) == At(t, [i] + b);
    assert rest[|b|] == path[|[i] + b|];
    assert Unmatched(c, b, rest, partial);
  }

  /** Where a non-creating walk succeeds, a creating one does exactly the same. */
  lemma {:induction false} CreateWalkAgrees(t: Entry, path: seq<string>, partial: bool)
    requires WalkFrom(t, path, false, partial).Some?
    ensures WalkFrom(t, path, true, partial) == WalkFrom(t, path, false, partial)
    decreases |path|
  {
    if |path| > 0 {
      match GetChild(t, path[0])
      case None =>
      case Some(i) =>
        CreateWalkAgrees(t.children[i], path[1..], partial);
    }
  }

  /** A creating walk that had to create something ends on a node with no
      children: the last of the nodes it created. */
  lemma {:induction false} CreatedTargetIsEmpty(t: Entry, path: seq<string>)
    requires WalkFrom(t, path, false, false).None? || t.children == []
    ensures var w := WalkFrom(t, path, true, false).value;
      At(w.tree, w.addr).children == []
    decreases |path|
  {
    if |path| > 0 {
      var found := GetChild(t, path[0]);
      var parent := if found.Some? then t else InsertParent(t, path[0]);
      var i := if found.Some? then found.value else |t.children|;
      CreatedTargetIsEmpty(parent.children[i], path[1..]);
      var w := WalkFrom(parent.children[i], path[1..], true, false).value;
      var t' := parent.(children := parent.children[i := w.tree]);
      AddrCons(t', i, w.addr);
    }
  }

  /** A creating walk adds exactly one node per token past the part of the
      path that already resolves. */
  lemma {:induction false} WalkCreatesMissing(t: Entry, path: seq<string>)
    ensures Size(WalkFrom(t, path, true, false).value.tree) == Size(t) + |path| - Depth(t, path)
    decreases |path|
  {
    if |path| > 0 {
      match GetChild(t, path[0])
      case Some(i) =>
        WalkCreatesMissing(t.children[i], path[1..]);
        FoundStepSize(t, path, i);
      case None =>
        WalkCreatesMissing(Directory(path[0], "Directory"), path[1..]);
        MissingStepSize(t, path);
    }
  }

  /** The size step of a creating walk through an existing child. */
  lemma FoundStepSize(t: Entry, path: seq<string>, i: nat)
    requires |path| > 0 && GetChild(t, path[0]) == Some(i)
    requires var c := t.children[i];
      Size(WalkFrom(c, path[1..], true, false).value.tree) == Size(c) + |path| - 1 - Depth(c, path[1..])
    ensures Size(WalkFrom(t, path, true, false).value.tree) == Size(t) + |path| - Depth(t, path)
  {
    var w := WalkFrom(t.children[i], path[1..], true, false).value;
    assert WalkFrom(t, path, true, false).value.tree == t.(children := t.children[i := w.tree]);
    SizeOfUpdate(t.children, i, w.tree);
  }

  /** The size step of a creating walk that adds a directory. */
  lemma MissingStepSize(t: Entry, path: seq<string>)
    requires |path| > 0 && GetChild(t, path[0]).None?
    requires var d := Directory(path[0], "Directory");
      Size(WalkFrom(d, path[1..], true, false).value.tree) == Size(d) + |path| - 1 - Depth(d, path[1..])
    ensures Size(WalkFrom(t, path, true, false).value.tree) == Size(t) + |path| - Depth(t, path)
  {
    var d := Directory(path[0], "Directory");
    var w := WalkFrom(d, path[1..], true, false).value;
    MissingStepTree(t, path);
    assert Depth(d, path[1..]) == 0;
    SizeOfAppend(t.children, w.tree);
  }

  /** A creating walk that adds a directory appends the walked subtree. */
  lemma MissingStepTree(t: Entry, path: seq<string>)
    requires |path| > 0 && GetChild(t, path[0]).None?
    ensures var d := Directory(path[0], "Directory");
      WalkFrom(t, path, true, false).value.tree == t.(children := t.children + [WalkFrom(d, path[1..], true, false).value.tree])
  {
    var w := WalkFrom(Directory(path[0], "Directory"), path[1..], true, false).value;
    var parent := InsertParent(t, path[0]);
    MissingStepUnfold(t, path, parent, |t.children|, w);
    ReplaceAppended(t, path[0], w.tree);
  }

  /** One creating step of the walk, at a node lacking the first token. */
  lemma MissingStepUnfold(t: Entry, path: seq<string>, parent: Entry, i: nat, w: Walked)
    requires |path| > 0 && GetChild(t, path[0]).None?
    requires parent == InsertParent(t, path[0]) && i == |t.children|
    requires WalkFrom(Directory(path[0], "Directory"), path[1..], true, false) == Some(w)
    ensures WalkFrom(t, path, true, false) == Some(Walked(parent.(children := parent.children[i := w.tree]), [i] + w.addr, w.rest))
  {
    assert parent.children[i] == Directory(path[0], "Directory");
  }

  /** Walking the same path again after a creating walk creates nothing and
      reaches the same node. */
  lemma WalkAgainCreatesNothing(t: Entry, path: seq<string>, create: bool, partial: bool)
    ensures var w := WalkFrom(t, path, true, false).value;
      WalkFrom(w.tree, path, create, partial) == Some(w)
  {
    var w := WalkFrom(t, path, true, false).value;
    assert PathNames(w.tree, w.addr) == path;
    WalkFollows(w.tree, w.addr, path, create, partial);
  }

  /** Walking never gives two siblings the same name. */
  lemma {:induction false} WalkKeepsWellNamed(t: Entry, path: seq<string>, create: bool, partial: bool)
    requires WellNamed(t)
    ensures WalkFrom(t, path, create, partial).Some? ==> WellNamed(WalkFrom(t, path, create, partial).value.tree)
    decreases |path|
  {
    if |path| > 0 {
      var found := GetChild(t, path[0]);
      if !(found.None? && partial && t.tag == DirentTag) && !(found.None? && !create) {
        var parent := if found.Some? then t else InsertParent(t, path[0]);
        var i := if found.Some? then found.value else |t.children|;
        var c := parent.children[i];
        WalkKeepsWellNamed(c, path[1..], create, partial);
        match WalkFrom(c, path[1..], create, partial)
        case None =>
        case Some(w) =>
          StepWellNamed(t, path, parent, i, w.tree);
      }
    }
  }

  /** Putting a same-named well-named subtree back in place of the child
      descended into keeps a well-named node well-named. */
  lemma StepWellNamed(node: Entry, path: seq<string>, parent: Entry, i: nat, c': Entry)
    requires |path| > 0 && WellNamed(node) && WellNamed(c')
    requires || (GetChild(node, path[0]) == Some(i) && parent == node)
             || (!HasChild(node, path[0]) && parent == InsertParent(node, path[0]) && i == |node.children|)
    requires i < |parent.children| && c'.name == parent.children[i].name
    ensures WellNamed(parent.(children := parent.children[i := c']))
  {
    if GetChild(node, path[0]).None? {
      assert parent.children[i := c'] == node.children + [c'];
      AppendKeepsUnique(node.children, c');
    } else {
      UpdateKeepsUnique(node.children, i, c');
    }
    ChildrenWellNamed(parent.(children := parent.children[i := c']));
  }
}
